=== FILE: README.md ===
# Stadium wave — a Dafny model

This project models the core of a small Three.js football-stadium demo. The
demo has three parts:

- a parametric layout of the field, goals, seating blocks and spectators;
- a crowd roster of three tier rows in column order;
- a "stadium wave" that travels column by column around the stands when the
  user presses F.

All coordinates are Dafny `real`s. Angles are written as multiples of pi
(0.5 stands for pi/2).

Modules (with the file each models):

- `Geometry` (shared vocabulary, no file of its own): points, shapes and meshes, and exact quarter-turn rotation
  about the vertical axis.
- `Field` (js/field.js): stripe tiling, grass alternation, the boundary and
  middle lines, the centre circle, goal areas and arcs, and elevation layers.
- `Goal` (js/goal.js): posts, crossbar and nets of the LEFT and RIGHT goals,
  mirrored by the multiplier.
- `Seats` (js/seats.js): the four seating blocks with three stacked tiers
  each.
- `Person` (js/person.js): placing and standing up one spectator.
- `Stadium` (js/main.js): the demo's constants, the four seating blocks, and
  the roster loops that fill the three tier rows.
- `Wave` (js/main.js): the wave as a pure step function over a `WaveState`.
  The state has an active flag, a column index and the three rows. The
  central properties are:
  - a sliding-window invariant: behind column c, column c-1 stands 7 above
    rest, column c-2 stands 4 above rest, and every other column is seated;
  - a completion theorem: with bound N + 2, where N is the row length,
    bound + 1 ticks leave every spectator exactly as seated;
  - an if-and-only-if: the wave finishes seated exactly when the bound is 0
    or at least N + 2.
- `App` (js/main.js): the key handler, the per-frame tick gated by the 0.035 s
  time accumulator, and the start-up state. Together these give the
  end-to-end result `FullWave`: press F, let 39 qualifying frames pass, and
  the application is back where it started.

Points where the model follows the code rather than what a reader might
expect from its comments:

- The comment at js/main.js:282 counts 9 people in each side section. The
  left and right roster loops (js/main.js:193 and js/main.js:246) seat only
  8. Each tier row therefore has 10 + 8 + 10 + 8 = 36 columns, and the
  hard-coded bound 38 at js/main.js:283 is 36 + 2.
- A complete wave takes bound + 1 qualifying ticks: bound column ticks, then
  the tick that stops the wave (js/main.js:307-311).
- The code has no error path for a stripe count of 0. It divides by the
  count without a guard (js/field.js:30), so the model requires at least one
  stripe (`Field.Divisible`).
- The roster's right section uses its own stripe width, field_width / 12,
  rather than the stripe count.
- The left and right spectators' base y is -field_width / 2, as in the code.
- As in the code, the wave tests only row 1 for a spectator at an index.
  Rows 2 and 3 are indexed at the same place. `Wave.Guarded` states the
  length relation that makes this safe, and the roster meets it with three
  equal lengths.

## Model

| member | source | states |
|---|---|---|
| Field.StripeWidth | js/field.js:29-30 | the stripe width times the stripe count is the field width, and it is positive for a positive width |
| Field.CreateField | js/field.js:29-36 | the field has exactly one stripe per count, each one stripe width wide |
| Field.StripesTile | js/field.js:30-97 | stripe i is centred at -fw/2 + i*sw; neighbours abut; the stripes cover exactly [-fw/2 - sw/2, fw/2 - sw/2], whose ends are the left/right boundary lines and the ends of the top/bottom lines |
| Field.UniformWidthSum | js/field.js:29-32 | stripes of one common width add up to count times width |
| Field.StripeWidthsSum | js/field.js:29-32 | the stripes' widths add up to exactly the field width |
| Field.GrassAlternates | js/field.js:40-44 | stripe 0 uses the first grass and adjacent stripes never share a grass |
| Field.Layering | js/field.js:24-38 | ground 0 < field 0.3 < markings 0.4; every stripe is at the field elevation and every line and curve at the markings elevation |
| Field.CentreOnMidline | js/field.js:54-119 | the middle line and the centre circle (radius fh/6) are at x = -sw/2, the midpoint of the two boundary lines |
| Field.GoalAreasMirror | js/field.js:121-220 | the right goal areas, inner areas and arc centres mirror the left ones about x = -sw/2; the arcs share radii and sweep but turn opposite ways |
| Field.GoalAreasNested | js/field.js:121-205 | both goal areas start and end on the boundary line; the inner area lies inside the outer one; each arc is centred on its area's front line |
| Field.MarkingsInsideField | js/field.js:54-220 | every point of every straight marking lies inside the rectangle bounded by the boundary lines |
| Field.ArcsInsideField | js/field.js:138-189 | both goal-area arcs, taken as whole ellipses, lie inside the rectangle bounded by the boundary lines |
| Field.CentreCircleInsideField | js/field.js:104-119 | the centre circle lies between the boundary lines if and only if the field height is at most three times its width |
| Goal.Multiplier | js/goal.js:24-26 | the multiplier is 1 or -1, and 1 exactly for LEFT |
| Goal.CreateGoal | js/goal.js:13-28 | a goal is built for the requested side, on the goal line x = m*fw/2 - sw/2 |
| Goal.CreateGoals | js/goal.js:6-10 | exactly two goals are built, LEFT then RIGHT, with distinct sides |
| Goal.GoalsOnBoundaryLines | js/goal.js:26-54 | posts and crossbar stand on the goal line; LEFT's goal line is the right boundary line and RIGHT's the left one |
| Goal.PostsAndCrossbar | js/goal.js:15-54 | the posts are at y = -fh/6 and fh/6 and span z from 0 to fh/12; the crossbar is at the goal height, centred at y = 0, and its ends meet the posts' inner faces |
| Goal.NetsBehindGoalLine | js/goal.js:55-121 | the goal line is on the far side of the midline; the side and top nets are half a depth (fw/16) and the back net a full depth farther out |
| Goal.GoalsMirror | js/goal.js:24-121 | every RIGHT part mirrors the matching LEFT part about x = -sw/2, with equal y, z, shape and rotation |
| Seats.CreateSeats | js/seats.js:3-8 | four blocks are built, each with three tiers and turned by a whole quarter turn |
| Seats.TopBottomSeats | js/seats.js:10-71 | the top or bottom block: three stacked tiers, placed on x = 0 at ground level, turned by 0 (top) or pi (bottom) |
| Seats.LeftRightSeats | js/seats.js:73-128 | the left or right block: three stacked tiers at ground level, turned by pi/2 (left) or 3*pi/2 (right) |
| Seats.TiersAreStacked | js/seats.js:20-59 | tier k is k seat heights tall, rests on z = 0, is three depths thick, and its front face is the back face of the tier before it |
| Seats.TiersStack | js/seats.js:19-111 | all four blocks' tiers are stacked that way |
| Seats.BlockPlacement | js/seats.js:3-122 | the top and bottom blocks sit at opposite y = +-(fh/2 + 3d/2 + distY), the bottom turned by pi; the left block sits at x = -fw/2 + 3d/2 - distX; top and bottom are fw + 2*distY long and the side blocks fh + 2*(fh/8) long |
| Seats.TopBottomCentredOnMidline | js/seats.js:17-67 | after the bottom block's half turn, every top and bottom tier is centred at world x = -sw/2 |
| Seats.SideBlocksMirror | js/seats.js:113-125 | the side blocks' x positions sum to -sw, their y shifts are +-(fh/8)/2, and they are turned by pi/2 and 3*pi/2 |
| Person.CreatePerson | js/person.js:34-44 | the person keeps the seat's x and y, stands height/2 above the seat, is turned pi/2 about x and by the given turn about y, and carries the given colours |
| Person.SeatRoundTrip | js/person.js:34-40 | lowering a placed person by half its height gives back the seat it was placed at |
| Person.BodyProportions | js/person.js:12-32 | the arms mirror each other at a quarter height, are half a width wide and a third of a height long, and clear the body; the head has radius w/2 and is centred at h - w |
| Stadium.StadiumSeats | js/main.js:107-114 | the demo's blocks: four of them, with the top block at fh/2 + 3d/2 + fh/8, the bottom at its negative, and the left block at x = -fw/2 + 3d/2 - fw/4 |
| Stadium.RosterStripeWidthAgrees | js/main.js:121 | the roster's literal fw/12 equals the stripe width fw/num_stripes the field, goals and seats use |
| Stadium.DemoCircleInsideField | js/main.js:28-32 | with the demo's 200 x 150 field, the centre circle stays between the boundary lines |
| Stadium.Locate | js/main.js:153-262 | every column maps to a loop index the section's loop actually runs over (the side sections never use index 0) |
| Stadium.SeatTop | js/main.js:154-182 | the top loop appends 10 spectators, columns 0-9, each equal to its column's reference spectator |
| Stadium.SeatLeft | js/main.js:184-209 | the left loop appends 8 spectators, columns 10-17 |
| Stadium.SeatBottom | js/main.js:211-235 | the bottom loop appends 10 spectators, columns 18-27 |
| Stadium.SeatRight | js/main.js:237-262 | the right loop appends 8 spectators, columns 28-35 |
| Stadium.BuildRoster | js/main.js:139-263 | all three rows have 36 columns, and column j of row k is the reference spectator for tier k and column j |
| Stadium.ColumnsAligned | js/main.js:153-262 | a column's three spectators share the coordinate along the section and the turn; tier k is seated at k seat heights and stands at the tier's resting height |
| Stadium.NeighboursOneSpacingApart | js/main.js:153-262 | neighbouring columns within one section are one spacing (7 widths) apart, towards -x, -y, +x and +y in the top, left, bottom and right sections |
| Stadium.SectionOrder | js/main.js:153-262 | the columns pass through the sections in the order top, left, bottom, right, and each section starts and ends at the first and last index its loop visits |
| Wave.StepRow | js/main.js:285-304 | a tick keeps the row's length, changes only columns c, c-1 and c-2, and never changes an x, a y or a rotation |
| Wave.Advance | js/main.js:283-311 | a tick keeps rows 2 and 3 at least as long as row 1 |
| Wave.TickEffect | js/main.js:283-306 | before the bound, column c rises by 7, c-1 drops by 3 and c-2 is reset to rest, each only where row 1 has that index; nothing else moves; the column advances by one |
| Wave.TickAtBound | js/main.js:307-311 | at the bound a tick stops the wave, rewinds to column 0 and moves nobody |
| Wave.StepRowMovesTrail | js/main.js:285-306 | on a row that carries the trail behind column c, a tick moves the trail to column c + 1 and leaves no drift |
| Wave.TrailHeights | js/main.js:285-304 | in the trail, column c-1 is at rest + 7, column c-2 at rest + 4 and every other column at rest, with x, y and rotation untouched |
| Wave.AdvanceKeepsWindow | js/main.js:283-306 | a tick before the bound keeps the sliding-window invariant and moves the trail one column on |
| Wave.TrailGone | js/main.js:299-304 | at column 0, or N + 2 and beyond, the trail has left the row entirely |
| Wave.TrailVisible | js/main.js:285-297 | while the trail still touches the row (1 <= c <= N + 1) the row differs from the seated one |
| Wave.RunWithinBound | js/main.js:283-306 | n ticks that stay within the bound move the trail n columns on |
| Wave.Completion | js/main.js:282-311 | with bound N + 2, bound + 1 ticks from column 0 stop the wave at column 0 with every spectator exactly as seated |
| Wave.CompletionNeedsTwoSpareTicks | js/main.js:282-311 | the wave finishes with everyone seated if and only if the bound is 0 or at least N + 2 |
| App.KeyDown | js/main.js:52-94 | no key changes the wave's column, the crowd or the time accumulator, and no key stops a running wave |
| App.Frame | js/main.js:279-316 | a frame keeps the camera and keeps rows 2 and 3 at least as long as row 1; a frame with a running wave and more than 0.035 s accumulated applies one wave tick (Advance with bound 38) and clears the accumulator; any other frame changes nothing |
| App.Elapse | js/main.js:274-277 | the scheduler's callback adds exactly the elapsed time to the accumulator and changes nothing else |
| App.Start | js/main.js:18-270 | the start state has the camera at (0, 100, 200), no accumulated time, 36 columns per row, no wave running, and satisfies the invariant; row k's column j is the roster's spectator for tier k and column j |
| App.TriggerWave | js/main.js:55-58 | F sets the active flag and changes nothing else; pressed again, or during a wave, it changes nothing |
| App.CameraKeysMoveOneAxis | js/main.js:59-90 | each camera key moves the camera by 3 along exactly one axis and leaves the wave and the clock alone |
| App.CameraKeyDirections | js/main.js:59-90 | each letter key does exactly what its arrow or numpad alias does; A/Left is -x, D/Right +x, W/Up +y, S/Down -y, Q/NumpadAdd -z and E/NumpadSubtract +z, each by 3 |
| App.OtherKeysIgnored | js/main.js:91-93 | any other key changes nothing |
| App.OppositeKeysCancel | js/main.js:61-90 | pressing the two keys of an opposite pair, in either order, restores the state |
| App.QuietFrame | js/main.js:279-280 | a frame with no wave, or without more than 0.035 s accumulated, changes nothing |
| App.InvariantKept | js/main.js:267-316 | frames, key presses and elapsed time all keep the application invariant |
| App.IdleMeansSeated | js/main.js:267-311 | whenever no wave is running every spectator is exactly as seated |
| App.RunFrames | js/main.js:272-316 | with qualifying frames, each frame is one wave tick: the trail moves one column per frame and the frame after the bound stops the wave with everyone seated; the camera stays put and the accumulator is cleared |
| App.FullWave | js/main.js:52-316 | from an idle stadium, F followed by 39 qualifying frames returns the application to its starting state, with only the accumulator cleared |

## Left out

- js/lightpost.js and the six light-post placements: library mesh and light
  construction with constant sizes.
- Textures, materials, the renderer, the scene and camera objects, and
  `camera.lookAt`. These are calls into the graphics library and carry no
  layout logic.
- The ground plane (`create_ground`): a single library plane with a fixed
  size and rotation.
- Frame scheduling (`setTimeout`, `requestAnimationFrame`) and the clock.
  The time that passes between callbacks is the `dt` parameter of
  `App.Elapse`.
- The random shirt colours: they are the `shirt` parameter of the roster.
  `shirt(k, j)` is the colour drawn for column j of tier k.
- Point sampling of the ellipse curves: only the centre, radii, sweep and
  direction of each curve are kept.
- Floating-point rounding: coordinates and the time accumulator are exact
  reals.
- Scene-graph membership. Every `ground.add` and `field.add` is left out,
  including `create_person` adding its group to the ground. Each builder
  returns its parts as values.
- The commented-out axis lines at the end of js/main.js.
- Field.MarkingsInsideField: covers the nine straight markings only; the
  curves are covered by `Field.ArcsInsideField` and
  `Field.CentreCircleInsideField`. The centre circle is not inside the field
  for every field: it crosses both boundary lines when fh > 3*fw, e.g. for a
  10 x 150 field. It does stay inside for the demo's 200 x 150 field.
- Geometry.RotateZ: exact only for the quarter turns the seating blocks use.
  Other angles appear only as stored rotation values and are never applied
  to a point.
- Field.Divisible: stripe counts that are not whole numbers are outside the
  model, because the count is a `nat`.

=== FILE: app.dfy ===
/**
  The running application: the camera, the wave state and the time
  accumulated since the last wave tick. Key presses move the camera or start
  the wave; each rendered frame advances the wave once enough time has
  accumulated; the frame scheduler adds elapsed clock time to the
  accumulator.

  The camera's position is in scene coordinates, where y points up, unlike
  the ground frame of the layout (js/main.js turns the ground by -pi/2 about
  x). So "up" on the keyboard is +y for the camera.
 */
module App {
  import opened Geometry
  import opened Person
  import opened Stadium
  import opened Wave

  /** A frame advances the wave only when more than this much time (in seconds) has accumulated. */
  const Threshold: real := 0.035
  /** The wave's hard-coded column bound. */
  const WaveBound: int := 38
  const CameraStep: real := 3.0

  datatype App = App(camera: Vec3, wave: WaveState, delta: real)

  /** The key-down handler: keys move the camera or start the wave, and never touch the crowd, the column or the clock. */
  function KeyDown(a: App, key: string): (r: App)
    ensures r.wave.col == a.wave.col
    ensures r.wave.row1 == a.wave.row1 && r.wave.row2 == a.wave.row2 && r.wave.row3 == a.wave.row3
    ensures r.delta == a.delta
    ensures a.wave.active ==> r.wave.active
  {
    match key
    case "KeyF" => a.(wave := a.wave.(active := true))
    case "KeyA" | "ArrowLeft" => a.(camera := a.camera.(x := a.camera.x - CameraStep))
    case "KeyD" | "ArrowRight" => a.(camera := a.camera.(x := a.camera.x + CameraStep))
    case "KeyW" | "ArrowUp" => a.(camera := a.camera.(y := a.camera.y + CameraStep))
    case "KeyS" | "ArrowDown" => a.(camera := a.camera.(y := a.camera.y - CameraStep))
    case "KeyQ" | "NumpadAdd" => a.(camera := a.camera.(z := a.camera.z - CameraStep))
    case "KeyE" | "NumpadSubtract" => a.(camera := a.camera.(z := a.camera.z + CameraStep))
    case _ => a
  }

  /** The wave part of one animation frame; drawing the scene is not modelled. */
  function Frame(a: App): (r: App)
    requires Guarded(a.wave)
    ensures Guarded(r.wave)
    ensures r.camera == a.camera
    ensures r == a || (a.wave.active && a.delta > Threshold && r.delta == 0.0)
    ensures a.wave.active && a.delta > Threshold ==> r.wave == Advance(a.wave, WaveBound)
  {
    if a.wave.active && a.delta > Threshold then
      a.(wave := Advance(a.wave, WaveBound), delta := 0.0)
    else
      a
  }

  /** The scheduler's callback adds the clock time `dt` that passed since its last call. */
  function Elapse(a: App, dt: real): (r: App)
    ensures r.camera == a.camera && r.wave == a.wave
    ensures r.delta - a.delta == dt
  {
    a.(delta := a.delta + dt)
  }

  /** Builds the crowd and the initial state: camera at (0, 100, 200), no wave, no time accumulated. */
  method Start(shirt: (nat, nat) -> int) returns (a: App)
    ensures a.camera == Vec3(0.0, 100.0, 200.0) && a.delta == 0.0
    ensures |a.wave.row1| == Columns
    ensures Invariant(a, a.wave.row1, a.wave.row2, a.wave.row3)
    ensures !a.wave.active
    ensures forall j :: 0 <= j < Columns ==>
      && a.wave.row1[j] == Spectator(1, j, shirt)
      && a.wave.row2[j] == Spectator(2, j, shirt)
      && a.wave.row3[j] == Spectator(3, j, shirt)
  {
    var row1, row2, row3 := BuildRoster(shirt);
    forall k, j | 1 <= k <= 3 && 0 <= j < Columns
      ensures Spectator(k, j, shirt).position.z == RestZ(k)
    {
      ColumnsAligned(j, shirt);
    }
    TrailGone(row1, 0);
    TrailGone(row2, 0);
    TrailGone(row3, 0);
    a := App(Vec3(0.0, 100.0, 200.0), WaveState(false, 0, row1, row2, row3), 0.0);
  }

  /**
    The application's invariant relative to the seated rows b1, b2, b3: the
    wave is within its window, and the bound leaves the two spare ticks the
    trail needs to clear the last columns.
   */
  predicate Invariant(a: App, b1: seq<Person>, b2: seq<Person>, b3: seq<Person>)
  {
    InWindow(a.wave, b1, b2, b3, WaveBound) && |b1| + 2 == WaveBound
  }

  /**
    KeyF starts the wave without touching the column, the crowd, the camera or
    the clock; pressed again, or while a wave is running, it changes nothing.
   */
  lemma TriggerWave(a: App)
    ensures var t := KeyDown(a, "KeyF");
      && t.wave.active
      && t.wave.col == a.wave.col
      && t.wave.row1 == a.wave.row1 && t.wave.row2 == a.wave.row2 && t.wave.row3 == a.wave.row3
      && t.camera == a.camera && t.delta == a.delta
      && KeyDown(t, "KeyF") == t
    ensures a.wave.active ==> KeyDown(a, "KeyF") == a
  {
  }

  /** The keys the handler recognises. */
  const CameraKeys: set<string> :=
    {"KeyA", "ArrowLeft", "KeyD", "ArrowRight", "KeyW", "ArrowUp",
     "KeyS", "ArrowDown", "KeyQ", "NumpadAdd", "KeyE", "NumpadSubtract"}

  /** `after` differs from `before` in exactly one coordinate, and by exactly one camera step. */
  predicate OneStep(before: Vec3, after: Vec3)
  {
    || (after.x - before.x in {CameraStep, -CameraStep} && after.y == before.y && after.z == before.z)
    || (after.y - before.y in {CameraStep, -CameraStep} && after.x == before.x && after.z == before.z)
    || (after.z - before.z in {CameraStep, -CameraStep} && after.x == before.x && after.y == before.y)
  }

  /** Each camera key moves the camera one step along one axis and leaves the wave and the clock alone. */
  lemma CameraKeysMoveOneAxis(a: App, key: string)
    requires key in CameraKeys
    ensures OneStep(a.camera, KeyDown(a, key).camera)
    ensures KeyDown(a, key).wave == a.wave && KeyDown(a, key).delta == a.delta
  {
  }

  /**
    Each letter key is an alias of its arrow or numpad key, and the directions
    are: left (KeyA) is -x, right (KeyD) is +x, up (KeyW) is +y, down (KeyS)
    is -y, KeyQ moves closer (-z) and KeyE farther (+z).
   */
  lemma CameraKeyDirections(a: App)
    ensures KeyDown(a, "KeyA") == KeyDown(a, "ArrowLeft")
    ensures KeyDown(a, "KeyD") == KeyDown(a, "ArrowRight")
    ensures KeyDown(a, "KeyW") == KeyDown(a, "ArrowUp")
    ensures KeyDown(a, "KeyS") == KeyDown(a, "ArrowDown")
    ensures KeyDown(a, "KeyQ") == KeyDown(a, "NumpadAdd")
    ensures KeyDown(a, "KeyE") == KeyDown(a, "NumpadSubtract")
    ensures KeyDown(a, "KeyA").camera == Vec3(a.camera.x - 3.0, a.camera.y, a.camera.z)
    ensures KeyDown(a, "KeyD").camera == Vec3(a.camera.x + 3.0, a.camera.y, a.camera.z)
    ensures KeyDown(a, "KeyW").camera == Vec3(a.camera.x, a.camera.y + 3.0, a.camera.z)
    ensures KeyDown(a, "KeyS").camera == Vec3(a.camera.x, a.camera.y - 3.0, a.camera.z)
    ensures KeyDown(a, "KeyQ").camera == Vec3(a.camera.x, a.camera.y, a.camera.z - 3.0)
    ensures KeyDown(a, "KeyE").camera == Vec3(a.camera.x, a.camera.y, a.camera.z + 3.0)
  {
  }

  /** Unrecognised keys change nothing. */
  lemma OtherKeysIgnored(a: App, key: string)
    requires key !in CameraKeys && key != "KeyF"
    ensures KeyDown(a, key) == a
  {
  }

  /** The pairs of keys that move the camera in opposite directions along the same axis. */
  const Opposites: seq<(string, string)> :=
    [("KeyA", "KeyD"), ("ArrowLeft", "ArrowRight"), ("KeyW", "KeyS"), ("ArrowUp", "ArrowDown"),
     ("KeyQ", "KeyE"), ("NumpadAdd", "NumpadSubtract")]

  /** Pressing one key of an opposite pair and then the other, in either order, restores the state. */
  lemma OppositeKeysCancel(a: App)
    ensures forall i :: 0 <= i < |Opposites| ==>
      && KeyDown(KeyDown(a, Opposites[i].0), Opposites[i].1) == a
      && KeyDown(KeyDown(a, Opposites[i].1), Opposites[i].0) == a
  {
  }

  /** A frame with no running wave, or without enough accumulated time, changes nothing at all. */
  lemma QuietFrame(a: App)
    requires Guarded(a.wave)
    requires !a.wave.active || a.delta <= Threshold
    ensures Frame(a) == a
  {
  }

  /** Frames, key presses and elapsed time all keep the invariant. */
  lemma InvariantKept(a: App, b1: seq<Person>, b2: seq<Person>, b3: seq<Person>, key: string, dt: real)
    requires Invariant(a, b1, b2, b3)
    ensures Guarded(a.wave)
    ensures Invariant(Frame(a), b1, b2, b3)
    ensures Invariant(KeyDown(a, key), b1, b2, b3)
    ensures Invariant(Elapse(a, dt), b1, b2, b3)
  {
    if a.wave.active && a.delta > Threshold {
      if a.wave.col < WaveBound {
        AdvanceKeepsWindow(a.wave, b1, b2, b3, WaveBound);
      } else {
        TrailGone(b1, WaveBound);
        TrailGone(b2, WaveBound);
        TrailGone(b3, WaveBound);
        TrailGone(b1, 0);
        TrailGone(b2, 0);
        TrailGone(b3, 0);
      }
    }
  }

  /** Whenever no wave is running, every spectator is exactly as seated. */
  lemma IdleMeansSeated(a: App, b1: seq<Person>, b2: seq<Person>, b3: seq<Person>)
    requires Invariant(a, b1, b2, b3) && !a.wave.active
    ensures a.wave.row1 == b1 && a.wave.row2 == b2 && a.wave.row3 == b3
  {
    TrailGone(b1, 0);
    TrailGone(b2, 0);
    TrailGone(b3, 0);
  }

  /** Frames in a row, each after the scheduler has added the next clock time from `dts`. */
  function Run(a: App, dts: seq<real>): App
    requires Guarded(a.wave)
    decreases |dts|
  {
    if dts == [] then a
    else
      var a' := Frame(Elapse(a, dts[0]));
      assert Guarded(a'.wave);
      Run(a', dts[1..])
  }

  predicate AllQualify(dts: seq<real>)
  {
    forall i :: 0 <= i < |dts| ==> dts[i] > Threshold
  }

  /**
    While every frame's clock time exceeds the threshold, each frame is a wave
    tick: the trail moves one column per frame until the bound, and the frame
    after that stops the wave with every spectator seated. The camera stays put
    and the accumulator is cleared by each tick.
   */
  lemma {:induction false} RunFrames(a: App, b1: seq<Person>, b2: seq<Person>, b3: seq<Person>, dts: seq<real>)
    requires Invariant(a, b1, b2, b3) && a.wave.active && a.delta >= 0.0
    requires AllQualify(dts) && a.wave.col + |dts| <= WaveBound + 1
    decreases |dts|
    ensures Guarded(a.wave)
    ensures var r := Run(a, dts);
      && r.camera == a.camera
      && (|dts| > 0 ==> r.delta == 0.0)
      && (a.wave.col + |dts| <= WaveBound ==>
            r.wave == WaveState(true, a.wave.col + |dts|,
                                Trail(b1, a.wave.col + |dts|), Trail(b2, a.wave.col + |dts|), Trail(b3, a.wave.col + |dts|)))
      && (a.wave.col + |dts| == WaveBound + 1 ==> r.wave == WaveState(false, 0, b1, b2, b3))
  {
    InvariantKept(a, b1, b2, b3, "", 0.0);
    if dts != [] {
      var e := Elapse(a, dts[0]);
      assert e.delta > Threshold;
      InvariantKept(e, b1, b2, b3, "", 0.0);
      var a' := Frame(e);
      if a.wave.col < WaveBound {
        AdvanceKeepsWindow(e.wave, b1, b2, b3, WaveBound);
        assert AllQualify(dts[1..]) by {
          forall i | 0 <= i < |dts[1..]| ensures dts[1..][i] > Threshold {
            assert dts[1..][i] == dts[i + 1];
          }
        }
        RunFrames(a', b1, b2, b3, dts[1..]);
      } else {
        assert |dts| == 1;
        TrailGone(b1, WaveBound);
        TrailGone(b2, WaveBound);
        TrailGone(b3, WaveBound);
      }
    }
  }

  /**
    From an idle, seated stadium, pressing KeyF and then letting 39 qualifying
    frames pass (38 column ticks and the stopping tick) brings the application
    back to where it was, with only the time accumulator cleared.
   */
  lemma FullWave(a: App, b1: seq<Person>, b2: seq<Person>, b3: seq<Person>, dts: seq<real>)
    requires Invariant(a, b1, b2, b3) && !a.wave.active && a.delta >= 0.0
    requires AllQualify(dts) && |dts| == WaveBound + 1
    ensures Guarded(KeyDown(a, "KeyF").wave)
    ensures Run(KeyDown(a, "KeyF"), dts) == a.(delta := 0.0)
  {
    InvariantKept(a, b1, b2, b3, "KeyF", 0.0);
    IdleMeansSeated(a, b1, b2, b3);
    RunFrames(KeyDown(a, "KeyF"), b1, b2, b3, dts);
  }
}

=== FILE: field.dfy ===
/**
  The grass field: equal-width stripes of alternating grass, the boundary and
  middle lines, the centre circle, and the two goal areas with their arcs.
  Every coordinate is a fixed fraction of the field's width and height and of
  the stripe width (the width divided by the stripe count).
 */
module Field {
  import opened Geometry

  /** Elevations that keep the layers from fighting for the same depth. */
  const GroundZ: real := 0.0
  const FieldZ: real := 0.3
  const MarkingsZ: real := 0.4

  /** Field width and height and the number of grass stripes. */
  datatype FieldSpec = FieldSpec(width: real, height: real, stripes: nat)

  /** js/field.js divides by the stripe count without a guard, so callers must supply at least one. */
  predicate Divisible(fs: FieldSpec)
  {
    fs.stripes >= 1
  }

  function StripeWidth(fs: FieldSpec): (sw: real)
    requires Divisible(fs)
    ensures sw * fs.stripes as real == fs.width
    ensures fs.width > 0.0 ==> sw > 0.0
  {
    fs.width / fs.stripes as real
  }

  datatype Grass = Grass1 | Grass2

  /** One grass plane: `width` across the field, `length` along it, centred at `centre`. */
  datatype Stripe = Stripe(width: real, length: real, centre: Vec3, grass: Grass)

  /** A curve's centre (z is the line's elevation), radii, and sweep in multiples of pi. */
  datatype Ellipse = Ellipse(centre: Vec3, xRadius: real, yRadius: real,
                             startAngle: real, endAngle: real, clockwise: bool)

  type Polyline = seq<Vec3>

  datatype Field = Field(
    stripes: seq<Stripe>,
    middleLine: Polyline,
    topLine: Polyline,
    bottomLine: Polyline,
    leftLine: Polyline,
    rightLine: Polyline,
    centreCircle: Ellipse,
    leftBox: Polyline,
    leftArc: Ellipse,
    rightBox: Polyline,
    rightArc: Ellipse,
    leftInnerBox: Polyline,
    rightInnerBox: Polyline)

  function StripeAt(fs: FieldSpec, i: nat): Stripe
    requires Divisible(fs)
  {
    var sw := StripeWidth(fs);
    Stripe(sw, fs.height, Vec3(-fs.width / 2.0 + i as real * sw, 0.0, FieldZ),
           if i % 2 == 0 then Grass1 else Grass2)
  }

  /** A goal area drawn from the boundary at `x0`: top line, front line at `x0 + reach`, bottom line. */
  function GoalArea(x0: real, reach: real, halfHeight: real): Polyline
  {
    [Vec3(x0, halfHeight, MarkingsZ), Vec3(x0 + reach, halfHeight, MarkingsZ),
     Vec3(x0 + reach, -halfHeight, MarkingsZ), Vec3(x0, -halfHeight, MarkingsZ)]
  }

  /** Builds the field; the boundary lines sit half a stripe left of the stripes' nominal span. */
  function CreateField(fs: FieldSpec): (f: Field)
    requires Divisible(fs)
    ensures |f.stripes| == fs.stripes
    ensures forall i :: 0 <= i < |f.stripes| ==> f.stripes[i].width == StripeWidth(fs)
  {
    var fw := fs.width;
    var fh := fs.height;
    var sw := StripeWidth(fs);
    var left := -fw / 2.0 - sw / 2.0;
    var right := fw / 2.0 - sw / 2.0;
    Field(
      seq(fs.stripes, i requires 0 <= i < fs.stripes => StripeAt(fs, i)),
      [Vec3(-sw / 2.0, fh / 2.0, MarkingsZ), Vec3(-sw / 2.0, -fh / 2.0, MarkingsZ)],
      [Vec3(left, fh / 2.0, MarkingsZ), Vec3(right, fh / 2.0, MarkingsZ)],
      [Vec3(left, -fh / 2.0, MarkingsZ), Vec3(right, -fh / 2.0, MarkingsZ)],
      [Vec3(left, fh / 2.0, MarkingsZ), Vec3(left, -fh / 2.0, MarkingsZ)],
      [Vec3(right, fh / 2.0, MarkingsZ), Vec3(right, -fh / 2.0, MarkingsZ)],
      Ellipse(Vec3(-sw / 2.0, 0.0, MarkingsZ), fh / 6.0, fh / 6.0, 0.0, 2.0, false),
      GoalArea(left, fw / 6.0, fh / 3.0),
      Ellipse(Vec3(left + fw / 6.0, 0.0, MarkingsZ), fw / 12.0, fh / 6.0, 0.5, 1.5, true),
      GoalArea(right, -(fw / 6.0), fh / 3.0),
      Ellipse(Vec3(right - fw / 6.0, 0.0, MarkingsZ), fw / 12.0, fh / 6.0, 0.5, 1.5, false),
      GoalArea(left, fw / 12.0, fh / 6.0),
      GoalArea(right, -(fw / 12.0), fh / 6.0))
  }

  /** x of the left boundary line: the low end of the span the stripes cover. */
  function LeftBoundary(fs: FieldSpec): real
    requires Divisible(fs)
  {
    CreateField(fs).leftLine[0].x
  }

  /** x of the right boundary line: the high end of the span the stripes cover. */
  function RightBoundary(fs: FieldSpec): real
    requires Divisible(fs)
  {
    CreateField(fs).rightLine[0].x
  }

  function LowEdge(s: Stripe): real { s.centre.x - s.width / 2.0 }
  function HighEdge(s: Stripe): real { s.centre.x + s.width / 2.0 }

  /** Sum of the stripes' widths. */
  function TotalWidth(ss: seq<Stripe>): real
  {
    if ss == [] then 0.0 else ss[0].width + TotalWidth(ss[1..])
  }

  /**
    Stripe i is centred at -fw/2 + i*sw; neighbours abut with neither gap nor
    overlap, and together they cover exactly the span between the two
    boundary lines, whose ends are also the ends of the top and bottom lines.
   */
  lemma StripesTile(fs: FieldSpec)
    requires Divisible(fs)
    ensures var f := CreateField(fs);
      && (forall i :: 0 <= i < |f.stripes| ==>
            f.stripes[i].centre.x == -fs.width / 2.0 + i as real * StripeWidth(fs))
      && (forall i :: 0 <= i < |f.stripes| - 1 ==> HighEdge(f.stripes[i]) == LowEdge(f.stripes[i + 1]))
      && LowEdge(f.stripes[0]) == LeftBoundary(fs) == -fs.width / 2.0 - StripeWidth(fs) / 2.0
      && HighEdge(f.stripes[|f.stripes| - 1]) == RightBoundary(fs) == fs.width / 2.0 - StripeWidth(fs) / 2.0
      && f.topLine[0].x == f.bottomLine[0].x == f.leftLine[1].x == LeftBoundary(fs)
      && f.topLine[1].x == f.bottomLine[1].x == f.rightLine[1].x == RightBoundary(fs)
  {
    var f := CreateField(fs);
    var sw := StripeWidth(fs);
    var n := fs.stripes as real;
    assert f.stripes[fs.stripes - 1].centre.x == -fs.width / 2.0 + (n - 1.0) * sw;
    assert (n - 1.0) * sw == n * sw - sw;
  }

  /** Equal widths add up to count times width. */
  lemma {:induction false} UniformWidthSum(ss: seq<Stripe>, w: real)
    requires forall i :: 0 <= i < |ss| ==> ss[i].width == w
    ensures TotalWidth(ss) == |ss| as real * w
  {
    if ss != [] {
      UniformWidthSum(ss[1..], w);
      assert ss[0].width == w;
    }
  }

  /** The stripes' widths add up to exactly the field width. */
  lemma StripeWidthsSum(fs: FieldSpec)
    requires Divisible(fs)
    ensures TotalWidth(CreateField(fs).stripes) == fs.width
  {
    UniformWidthSum(CreateField(fs).stripes, StripeWidth(fs));
  }

  /** Materials alternate with the parity of the stripe index, so neighbours never share one. */
  lemma GrassAlternates(fs: FieldSpec)
    requires Divisible(fs)
    ensures var ss := CreateField(fs).stripes;
      && ss[0].grass == Grass1
      && forall i :: 0 <= i < |ss| - 1 ==> ss[i].grass != ss[i + 1].grass
  {
  }

  predicate AllAt(line: Polyline, z: real)
  {
    forall i :: 0 <= i < |line| ==> line[i].z == z
  }

  /** The straight markings of a field, in the order js/field.js draws them. */
  function Straight(f: Field): seq<Polyline>
  {
    [f.middleLine, f.topLine, f.bottomLine, f.leftLine, f.rightLine,
     f.leftBox, f.rightBox, f.leftInnerBox, f.rightInnerBox]
  }

  function Curves(f: Field): seq<Ellipse>
  {
    [f.centreCircle, f.leftArc, f.rightArc]
  }

  /** Ground below field below markings: every stripe is at the field's elevation and every marking at the markings'. */
  lemma Layering(fs: FieldSpec)
    requires Divisible(fs)
    ensures GroundZ < FieldZ < MarkingsZ
    ensures var f := CreateField(fs);
      && (forall i :: 0 <= i < |f.stripes| ==> f.stripes[i].centre.z == FieldZ)
      && (forall k :: 0 <= k < |Straight(f)| ==> AllAt(Straight(f)[k], MarkingsZ))
      && (forall k :: 0 <= k < |Curves(f)| ==> Curves(f)[k].centre.z == MarkingsZ)
  {
  }

  /** The middle line and the centre circle (radius fh/6) sit midway between the boundary lines, at x = -sw/2. */
  lemma CentreOnMidline(fs: FieldSpec)
    requires Divisible(fs)
    ensures var f := CreateField(fs); var mid := -StripeWidth(fs) / 2.0;
      && mid == (LeftBoundary(fs) + RightBoundary(fs)) / 2.0
      && f.middleLine[0].x == f.middleLine[1].x == mid
      && f.middleLine[0].y == fs.height / 2.0 && f.middleLine[1].y == -fs.height / 2.0
      && f.centreCircle.centre.x == mid && f.centreCircle.centre.y == 0.0
      && f.centreCircle.xRadius == f.centreCircle.yRadius == fs.height / 6.0
  {
  }

  /** Points `a` and `b` are mirror images about the vertical line x = -sw/2. */
  predicate Mirrored(a: Vec3, b: Vec3, sw: real)
  {
    a.x + b.x == -sw && a.y == b.y && a.z == b.z
  }

  predicate MirroredLines(a: Polyline, b: Polyline, sw: real)
  {
    |a| == |b| && forall i :: 0 <= i < |a| ==> Mirrored(a[i], b[i], sw)
  }

  /**
    The right goal areas, inner areas and arcs are the left ones reflected about
    the midline: paired x-coordinates sum to -sw; the arcs keep their radii and
    sweep but turn the opposite way.
   */
  lemma GoalAreasMirror(fs: FieldSpec)
    requires Divisible(fs)
    ensures var f := CreateField(fs); var sw := StripeWidth(fs);
      && MirroredLines(f.leftBox, f.rightBox, sw)
      && MirroredLines(f.leftInnerBox, f.rightInnerBox, sw)
      && MirroredLines(f.leftLine, f.rightLine, sw)
      && Mirrored(f.leftArc.centre, f.rightArc.centre, sw)
      && f.leftArc.xRadius == f.rightArc.xRadius && f.leftArc.yRadius == f.rightArc.yRadius
      && f.leftArc.startAngle == f.rightArc.startAngle && f.leftArc.endAngle == f.rightArc.endAngle
      && f.leftArc.clockwise != f.rightArc.clockwise
  {
  }

  /** `p` lies in the axis-aligned rectangle [xLow, xHigh] x [yLow, yHigh]. */
  predicate Within(p: Vec3, xLow: real, xHigh: real, yLow: real, yHigh: real)
  {
    xLow <= p.x <= xHigh && yLow <= p.y <= yHigh
  }

  predicate LineWithin(line: Polyline, xLow: real, xHigh: real, yLow: real, yHigh: real)
  {
    forall i :: 0 <= i < |line| ==> Within(line[i], xLow, xHigh, yLow, yHigh)
  }

  /**
    The inner goal area (depth fw/12, y within fh/6) nests inside the outer one
    (depth fw/6, y within fh/3); both start and end on the boundary line, and
    the arc is centred on the outer area's front line.
   */
  lemma GoalAreasNested(fs: FieldSpec)
    requires Divisible(fs) && fs.width > 0.0 && fs.height > 0.0
    ensures var f := CreateField(fs); var l := LeftBoundary(fs); var r := RightBoundary(fs);
      && f.leftBox[0].x == f.leftBox[3].x == f.leftInnerBox[0].x == f.leftInnerBox[3].x == l
      && f.rightBox[0].x == f.rightBox[3].x == f.rightInnerBox[0].x == f.rightInnerBox[3].x == r
      && LineWithin(f.leftInnerBox, l, l + fs.width / 6.0, -fs.height / 3.0, fs.height / 3.0)
      && LineWithin(f.rightInnerBox, r - fs.width / 6.0, r, -fs.height / 3.0, fs.height / 3.0)
      && f.leftArc.centre.x == f.leftBox[1].x == f.leftBox[2].x
      && f.rightArc.centre.x == f.rightBox[1].x == f.rightBox[2].x
  {
  }

  /** Every point of every straight marking lies inside the rectangle the boundary lines enclose. */
  lemma MarkingsInsideField(fs: FieldSpec)
    requires Divisible(fs) && fs.width > 0.0 && fs.height > 0.0
    ensures var f := CreateField(fs);
      forall k :: 0 <= k < |Straight(f)| ==>
        LineWithin(Straight(f)[k], LeftBoundary(fs), RightBoundary(fs), -fs.height / 2.0, fs.height / 2.0)
  {
  }

  /** The bounding rectangle of the whole ellipse `e` lies in [xLow, xHigh] x [yLow, yHigh]. */
  predicate EllipseWithin(e: Ellipse, xLow: real, xHigh: real, yLow: real, yHigh: real)
  {
    && xLow <= e.centre.x - e.xRadius && e.centre.x + e.xRadius <= xHigh
    && yLow <= e.centre.y - e.yRadius && e.centre.y + e.yRadius <= yHigh
  }

  /**
    Each goal-area arc, taken as its whole ellipse (radii fw/12 and fh/6,
    centred on the front line fw/6 from the boundary), lies inside the
    rectangle the boundary lines enclose.
   */
  lemma ArcsInsideField(fs: FieldSpec)
    requires Divisible(fs) && fs.width > 0.0 && fs.height > 0.0
    ensures var f := CreateField(fs);
      && EllipseWithin(f.leftArc, LeftBoundary(fs), RightBoundary(fs), -fs.height / 2.0, fs.height / 2.0)
      && EllipseWithin(f.rightArc, LeftBoundary(fs), RightBoundary(fs), -fs.height / 2.0, fs.height / 2.0)
  {
  }

  /**
    The centre circle (radius fh/6, centred on the midline) fits between the
    boundary lines exactly when the height is at most three times the width;
    a taller field than that has the circle cross both boundary lines.
   */
  lemma CentreCircleInsideField(fs: FieldSpec)
    requires Divisible(fs) && fs.width > 0.0 && fs.height > 0.0
    ensures EllipseWithin(CreateField(fs).centreCircle, LeftBoundary(fs), RightBoundary(fs), -fs.height / 2.0, fs.height / 2.0)
            <==> fs.height <= 3.0 * fs.width
  {
  }
}

=== FILE: geometry.dfy ===
/**
  Shared vocabulary for the stadium layout: points, the shapes the scene is
  built from, and positioned meshes. All coordinates are in the frame of the
  ground group: x and y span the ground plane and z points up.

  Angles are written as multiples of pi, so 0.5 stands for pi/2 and 1.5 for
  3*pi/2; every angle the stadium uses is a rational multiple of pi.
 */
module Geometry {

  datatype Vec3 = Vec3(x: real, y: real, z: real)

  function Add(a: Vec3, b: Vec3): Vec3
  {
    Vec3(a.x + b.x, a.y + b.y, a.z + b.z)
  }

  /** The geometries the stadium instantiates, with the sizes they are built with (a box's extents along x, y and z). */
  datatype Shape =
    | Cylinder(radius: real, length: real)
    | Plane(width: real, height: real)
    | Box(sizeX: real, sizeY: real, sizeZ: real)
    | Sphere(radius: real)

  /** A shape placed relative to its parent group; `rotation` holds Euler angles in multiples of pi. */
  datatype Mesh = Mesh(shape: Shape, position: Vec3, rotation: Vec3)

  const NoRotation: Vec3 := Vec3(0.0, 0.0, 0.0)

  /** The rotation angles about the z axis that the model can apply exactly: whole quarter turns. */
  predicate QuarterTurn(turn: real)
  {
    turn == 0.0 || turn == 0.5 || turn == 1.0 || turn == 1.5
  }

  /** Rotates `v` counter-clockwise about the z axis by `turn` (a multiple of pi). */
  function RotateZ(v: Vec3, turn: real): (r: Vec3)
    requires QuarterTurn(turn)
    ensures r.z == v.z
    ensures r.x * r.x + r.y * r.y == v.x * v.x + v.y * v.y
    ensures turn == 0.0 ==> r == v
    ensures turn == 1.0 ==> r.x == -v.x && r.y == -v.y
  {
    if turn == 0.0 then v
    else if turn == 0.5 then Vec3(-v.y, v.x, v.z)
    else if turn == 1.0 then Vec3(-v.x, -v.y, v.z)
    else Vec3(v.y, -v.x, v.z)
  }

  /** Where a mesh's centre lands once its parent group is placed at `origin` and turned by `turn`. */
  function WorldCentre(origin: Vec3, turn: real, m: Mesh): Vec3
    requires QuarterTurn(turn)
  {
    Add(origin, RotateZ(m.position, turn))
  }
}

=== FILE: goal.dfy ===
/**
  The two goals: two posts, a crossbar and four net panels each. The right
  goal is the left goal with every x offset from the goal line reversed,
  selected by a multiplier of 1 (LEFT) or -1 (RIGHT).
 */
module Goal {
  import opened Geometry
  import opened Field

  const PostThickness: real := 0.5

  datatype Side = Left | Right

  /** LEFT is 1 and RIGHT is -1. */
  function Multiplier(side: Side): (m: real)
    ensures m == 1.0 || m == -1.0
    ensures side == Left <==> m == 1.0
  {
    if side == Left then 1.0 else -1.0
  }

  datatype Goal = Goal(
    side: Side,
    lineX: real,
    leftPost: Mesh,
    rightPost: Mesh,
    crossbar: Mesh,
    leftNet: Mesh,
    rightNet: Mesh,
    topNet: Mesh,
    backNet: Mesh)

  function GoalHeight(fs: FieldSpec): real { fs.height / 12.0 }
  function GoalWidth(fs: FieldSpec): real { fs.height / 3.0 - PostThickness * 2.0 }
  function GoalDepth(fs: FieldSpec): real { fs.width / 16.0 }

  /** Builds one goal; every part is placed relative to the goal line x = m*fw/2 - sw/2. */
  function CreateGoal(fs: FieldSpec, side: Side): (g: Goal)
    requires Divisible(fs)
    ensures g.side == side
    ensures g.lineX == (Multiplier(side) * fs.width) / 2.0 - StripeWidth(fs) / 2.0
  {
    var sw := StripeWidth(fs);
    var fh := fs.height;
    var gh := GoalHeight(fs);
    var gw := GoalWidth(fs);
    var depth := GoalDepth(fs);
    var m := Multiplier(side);
    var gx := (m * fs.width) / 2.0 - sw / 2.0;
    var post := Cylinder(PostThickness, gh);
    Goal(side, gx,
      Mesh(post, Vec3(gx, -fh / 6.0, gh / 2.0), Vec3(-0.5, 0.0, 0.0)),
      Mesh(post, Vec3(gx, fh / 6.0, gh / 2.0), Vec3(-0.5, 0.0, 0.0)),
      Mesh(Cylinder(PostThickness, gw), Vec3(gx, 0.0, gh), NoRotation),
      Mesh(Plane(depth, gh), Vec3(gx + (m * depth) / 2.0, -fh / 6.0, gh / 2.0), Vec3(0.5, 0.0, 0.0)),
      Mesh(Plane(depth, gh), Vec3(gx + (m * depth) / 2.0, fh / 6.0, gh / 2.0), Vec3(0.5, 0.0, 0.0)),
      Mesh(Plane(gw, depth), Vec3(gx + (m * depth) / 2.0, 0.0, gh), Vec3(0.0, 0.0, 0.5)),
      Mesh(Plane(gw, gh), Vec3(gx + m * depth, 0.0, gh / 2.0), Vec3(0.0, 0.5, 1.5)))
  }

  /** Builds both goals, LEFT first. */
  function CreateGoals(fs: FieldSpec): (gs: seq<Goal>)
    requires Divisible(fs)
    ensures |gs| == 2
    ensures gs[0].side == Left && gs[1].side == Right
    ensures forall i, j :: 0 <= i < j < |gs| ==> gs[i].side != gs[j].side
  {
    [CreateGoal(fs, Left), CreateGoal(fs, Right)]
  }

  /** The goal parts in the order js/goal.js adds them to the ground. */
  function Parts(g: Goal): seq<Mesh>
  {
    [g.leftPost, g.rightPost, g.crossbar, g.leftNet, g.rightNet, g.topNet, g.backNet]
  }

  /** LEFT stands on the right boundary line (m = 1) and RIGHT on the left one (m = -1). */
  lemma GoalsOnBoundaryLines(fs: FieldSpec)
    requires Divisible(fs)
    ensures var gs := CreateGoals(fs);
      && forall i :: 0 <= i < |gs| ==>
           forall p :: 0 <= p < 3 ==> Parts(gs[i])[p].position.x == gs[i].lineX
    ensures CreateGoal(fs, Left).lineX == RightBoundary(fs)
    ensures CreateGoal(fs, Right).lineX == LeftBoundary(fs)
  {
  }

  /**
    The posts stand at y = -fh/6 and y = fh/6, centred at half the goal height
    with the goal height as length, so each runs from the ground to the goal
    height; the crossbar lies at the goal height, centred at y = 0, and its two
    ends meet the posts' inner faces.
   */
  lemma PostsAndCrossbar(fs: FieldSpec, side: Side)
    requires Divisible(fs)
    ensures var g := CreateGoal(fs, side); var gh := fs.height / 12.0;
      && g.leftPost.position.y == -fs.height / 6.0 && g.rightPost.position.y == fs.height / 6.0
      && g.leftPost.shape.length == g.rightPost.shape.length == gh
      && g.leftPost.position.z - g.leftPost.shape.length / 2.0 == GroundZ
      && g.leftPost.position.z + g.leftPost.shape.length / 2.0 == gh
      && g.rightPost.position.z - g.rightPost.shape.length / 2.0 == GroundZ
      && g.rightPost.position.z + g.rightPost.shape.length / 2.0 == gh
      && g.crossbar.position.z == gh
      && g.crossbar.position.y == 0.0
      && g.crossbar.position.y - g.crossbar.shape.length / 2.0
           == g.leftPost.position.y + g.leftPost.shape.radius
      && g.crossbar.position.y + g.crossbar.shape.length / 2.0
           == g.rightPost.position.y - g.rightPost.shape.radius
  {
  }

  /**
    With a positive field width every net panel lies beyond the goal line, on
    the side away from the field's centre line x = -sw/2: the side and top
    panels half a depth (fw/16) out and the back panel a full depth out.
   */
  lemma NetsBehindGoalLine(fs: FieldSpec, side: Side)
    requires Divisible(fs) && fs.width > 0.0
    ensures var g := CreateGoal(fs, side); var mid := -StripeWidth(fs) / 2.0;
      var outward := Multiplier(side);
      && outward * (g.lineX - mid) > 0.0
      && outward * (g.leftNet.position.x - g.lineX) == GoalDepth(fs) / 2.0
      && outward * (g.rightNet.position.x - g.lineX) == GoalDepth(fs) / 2.0
      && outward * (g.topNet.position.x - g.lineX) == GoalDepth(fs) / 2.0
      && outward * (g.backNet.position.x - g.lineX) == GoalDepth(fs)
      && GoalDepth(fs) > 0.0
  {
  }

  /** Every part of RIGHT is the matching part of LEFT reflected about x = -sw/2, with the same shape and rotation. */
  lemma GoalsMirror(fs: FieldSpec)
    requires Divisible(fs)
    ensures var l := CreateGoal(fs, Left); var r := CreateGoal(fs, Right);
      && l.lineX + r.lineX == -StripeWidth(fs)
      && forall p :: 0 <= p < |Parts(l)| ==>
           && Mirrored(Parts(l)[p].position, Parts(r)[p].position, StripeWidth(fs))
           && Parts(l)[p].shape == Parts(r)[p].shape
           && Parts(l)[p].rotation == Parts(r)[p].rotation
  {
  }
}

=== FILE: person.dfy ===
/**
  A spectator: a group holding a spherical head, a box body and two box arms,
  placed at a seat point and stood upright. In the person's own frame y is up
  (the group is turned by pi/2 about x), so the parts are offset along y.
 */
module Person {
  import opened Geometry

  datatype Person = Person(
    position: Vec3,
    rotation: Vec3,
    head: Mesh,
    body: Mesh,
    leftArm: Mesh,
    rightArm: Mesh,
    headColor: int,
    shirtColor: int)

  /**
    Builds a person `width` wide and `height` tall whose body is centred half a
    height above `seat`, turned by `turn` (a multiple of pi) about its own
    vertical axis.
   */
  function CreatePerson(width: real, height: real, headColor: int, shirtColor: int,
                        seat: Vec3, turn: real := 0.0): (p: Person)
    ensures p.position.x == seat.x && p.position.y == seat.y
    ensures p.position.z == seat.z + height / 2.0
    ensures p.rotation.x == 0.5 && p.rotation.y == turn
    ensures p.headColor == headColor && p.shirtColor == shirtColor
  {
    var armWidth := width / 2.0;
    var arm := Box(armWidth, height / 3.0, width / 2.0);
    var person := Person(
      Vec3(seat.x, seat.y, seat.z),
      Vec3(0.5, turn, 0.0),
      Mesh(Sphere(width / 2.0), Vec3(0.0, height - width, 0.0), NoRotation),
      Mesh(Box(width, height, width), Vec3(0.0, 0.0, 0.0), NoRotation),
      Mesh(arm, Vec3(-width / 2.0 - armWidth / 1.75, height / 4.0, 0.0), NoRotation),
      Mesh(arm, Vec3(width / 2.0 + armWidth / 1.75, height / 4.0, 0.0), NoRotation),
      headColor, shirtColor);
    person.(position := person.position.(z := person.position.z + height / 2.0))
  }

  /** The point a person of the given height was seated at: its centre lowered by half its height. */
  function SeatPoint(p: Person, height: real): Vec3
  {
    Vec3(p.position.x, p.position.y, p.position.z - height / 2.0)
  }

  /** Placing a person and reading back its seat point gives the seat it was placed at. */
  lemma SeatRoundTrip(width: real, height: real, headColor: int, shirtColor: int, seat: Vec3, turn: real)
    ensures SeatPoint(CreatePerson(width, height, headColor, shirtColor, seat, turn), height) == seat
  {
  }

  /**
    The arms are mirror images across the body's axis, both a quarter height
    up; each is half the body's width wide and a third of its height long, and
    (for a positive width) clears the body's side by a gap. The head's radius
    is half the width and its centre is one width below the top of the height.
   */
  lemma BodyProportions(width: real, height: real, headColor: int, shirtColor: int, seat: Vec3, turn: real)
    requires width > 0.0
    ensures var p := CreatePerson(width, height, headColor, shirtColor, seat, turn);
      && p.leftArm.position.x == -p.rightArm.position.x
      && p.leftArm.position.y == p.rightArm.position.y == height / 4.0
      && p.leftArm.shape == p.rightArm.shape
      && p.rightArm.shape.sizeX == width / 2.0 && p.rightArm.shape.sizeY == height / 3.0
      && p.body.shape.Box? && p.body.position == Vec3(0.0, 0.0, 0.0)
      && p.rightArm.position.x - p.rightArm.shape.sizeX / 2.0 > p.body.shape.sizeX / 2.0
      && p.head.shape == Sphere(width / 2.0)
      && p.head.position == Vec3(0.0, height - width, 0.0)
  {
  }
}

=== FILE: seats.dfy ===
/**
  The four seating blocks around the field. Each block is a group of three
  stacked tier boxes: tier k (k = 1, 2, 3) is k seat heights tall and three
  seat depths thick, and sits 3*(k-1) seat depths behind the front tier. The
  group is then moved beside the field and turned about the vertical axis.
 */
module Seats {
  import opened Geometry

  /** A seating group: where it is placed, its turn about z (a multiple of pi), and its tier boxes front to back. */
  datatype Block = Block(position: Vec3, turn: real, tiers: seq<Mesh>)

  /** Tier k of a block `length` long, shifted by `dx` along the block. */
  function TierBox(length: real, depth: real, height: real, dx: real, k: nat): Mesh
  {
    Mesh(Box(length, depth * 3.0, height * k as real),
         Vec3(dx, depth * 3.0 * (k as real - 1.0), (height * k as real) / 2.0),
         NoRotation)
  }

  function Tiers(length: real, depth: real, height: real, dx: real): seq<Mesh>
  {
    [TierBox(length, depth, height, dx, 1), TierBox(length, depth, height, dx, 2),
     TierBox(length, depth, height, dx, 3)]
  }

  /** The block behind the top (positive y) or, turned by pi, the bottom touch line. */
  function TopBottomSeats(height: real, depth: real, dist: real, fw: real, fh: real, stripes: nat,
                          isBottom: bool): (b: Block)
    requires stripes >= 1
    ensures |b.tiers| == 3 && QuarterTurn(b.turn)
    ensures Stacked(b.tiers, height, depth)
    ensures b.position.x == 0.0 && b.position.z == 0.0
    ensures b.turn == (if isBottom then 1.0 else 0.0)
  {
    var sw := fw / stripes as real;
    var dx := if isBottom then sw / 2.0 else -(sw / 2.0);
    var y := if isBottom then -fh / 2.0 - (depth * 3.0) / 2.0 - dist else fh / 2.0 + (depth * 3.0) / 2.0 + dist;
    TiersAreStacked(fw + dist * 2.0, depth, height, dx);
    Block(Vec3(0.0, y, 0.0), if isBottom then 1.0 else 0.0, Tiers(fw + dist * 2.0, depth, height, dx))
  }

  /** The block beside the left goal line (turned pi/2) or the right one (turned 3*pi/2). */
  function LeftRightSeats(height: real, depth: real, dist: real, fw: real, fh: real, stripes: nat,
                          isRight: bool): (b: Block)
    requires stripes >= 1
    ensures |b.tiers| == 3 && QuarterTurn(b.turn)
    ensures Stacked(b.tiers, height, depth)
    ensures b.position.z == 0.0
    ensures b.turn == (if isRight then 1.5 else 0.5)
  {
    var topBottomDist := fh / 8.0;
    var sw := fw / stripes as real;
    var position :=
      if isRight then Vec3(fw / 2.0 - sw - (depth * 3.0) / 2.0 + dist, -(topBottomDist / 2.0), 0.0)
      else Vec3(-fw / 2.0 + (depth * 3.0) / 2.0 - dist, topBottomDist / 2.0, 0.0);
    TiersAreStacked(fh + topBottomDist * 2.0, depth, height, -(sw / 2.0));
    Block(position, if isRight then 1.5 else 0.5, Tiers(fh + topBottomDist * 2.0, depth, height, -(sw / 2.0)))
  }

  /** The four blocks in the order js/seats.js builds them: top, bottom, left, right. */
  function CreateSeats(height: real, depth: real, distX: real, distY: real, fw: real, fh: real,
                       stripes: nat): (bs: seq<Block>)
    requires stripes >= 1
    ensures |bs| == 4
    ensures forall i :: 0 <= i < 4 ==> |bs[i].tiers| == 3 && QuarterTurn(bs[i].turn)
  {
    [TopBottomSeats(height, depth, distY, fw, fh, stripes, false),
     TopBottomSeats(height, depth, distY, fw, fh, stripes, true),
     LeftRightSeats(height, depth, distX, fw, fh, stripes, false),
     LeftRightSeats(height, depth, distX, fw, fh, stripes, true)]
  }

  /**
    Tier k (counting from 0 here) is k+1 seat heights tall and centred at half
    that height, so it rests on the ground; it is three seat depths thick and
    its front face is the back face of the tier before it.
   */
  predicate Stacked(ts: seq<Mesh>, height: real, depth: real)
  {
    && |ts| == 3
    && (forall k :: 0 <= k < 3 ==>
          && ts[k].shape.Box?
          && ts[k].shape.sizeZ == height * (k + 1) as real
          && ts[k].position.z - ts[k].shape.sizeZ / 2.0 == 0.0
          && ts[k].shape.sizeY == depth * 3.0
          && ts[k].position.y == depth * 3.0 * k as real)
    && (forall k :: 0 <= k < 2 ==>
          ts[k].position.y + ts[k].shape.sizeY / 2.0 == ts[k + 1].position.y - ts[k + 1].shape.sizeY / 2.0)
  }

  lemma TiersAreStacked(length: real, depth: real, height: real, dx: real)
    ensures Stacked(Tiers(length, depth, height, dx), height, depth)
  {
    var ts := Tiers(length, depth, height, dx);
    assert ts[0].shape.sizeZ == height * 1.0;
    assert ts[1].shape.sizeZ == height * 2.0;
    assert ts[2].shape.sizeZ == height * 3.0;
  }

  /** In all four blocks the three tiers are stacked as described by Stacked. */
  lemma TiersStack(height: real, depth: real, distX: real, distY: real, fw: real, fh: real, stripes: nat)
    requires stripes >= 1
    ensures var bs := CreateSeats(height, depth, distX, distY, fw, fh, stripes);
      forall b :: 0 <= b < 4 ==> Stacked(bs[b].tiers, height, depth)
  {
    var sw := fw / stripes as real;
    TiersAreStacked(fw + distY * 2.0, depth, height, sw / 2.0);
    TiersAreStacked(fw + distY * 2.0, depth, height, -(sw / 2.0));
    TiersAreStacked(fh + (fh / 8.0) * 2.0, depth, height, -(sw / 2.0));
  }

  /**
    The top and bottom blocks use the y distance and the left and right blocks
    the x distance: the top and bottom blocks are fw + 2*distY long and sit at
    opposite y = +-(fh/2 + 3*depth/2 + distY), the bottom one turned by pi;
    the left block sits at x = -fw/2 + 3*depth/2 - distX (SideBlocksMirror
    places the right one from it); the side blocks are fh + 2*(fh/8) long.
   */
  lemma BlockPlacement(height: real, depth: real, distX: real, distY: real, fw: real, fh: real, stripes: nat)
    requires stripes >= 1
    ensures var bs := CreateSeats(height, depth, distX, distY, fw, fh, stripes);
      && bs[0].position.y == fh / 2.0 + (depth * 3.0) / 2.0 + distY
      && bs[1].position.y == -bs[0].position.y
      && bs[0].turn == 0.0 && bs[1].turn == 1.0
      && bs[2].position.x == -fw / 2.0 + (depth * 3.0) / 2.0 - distX
      && (forall k :: 0 <= k < 3 ==> bs[0].tiers[k].shape.sizeX == bs[1].tiers[k].shape.sizeX == fw + 2.0 * distY)
      && (forall k :: 0 <= k < 3 ==> bs[2].tiers[k].shape.sizeX == bs[3].tiers[k].shape.sizeX == fh + 2.0 * (fh / 8.0))
  {
  }

  /**
    The top tiers are shifted half a stripe towards -x and the bottom tiers
    half a stripe towards +x; once the bottom block is turned by pi both
    blocks' tiers are centred on the field's midline x = -sw/2.
   */
  lemma TopBottomCentredOnMidline(height: real, depth: real, distX: real, distY: real, fw: real, fh: real, stripes: nat)
    requires stripes >= 1
    ensures var bs := CreateSeats(height, depth, distX, distY, fw, fh, stripes);
      var sw := fw / stripes as real;
      forall b, k :: 0 <= b < 2 && 0 <= k < 3 ==>
        WorldCentre(bs[b].position, bs[b].turn, bs[b].tiers[k]).x == -(sw / 2.0)
  {
  }

  /**
    The side blocks mirror each other across the midline: their x positions
    sum to -sw, they are shifted by fh/16 in opposite y directions, and they
    are turned by pi/2 (left) and 3*pi/2 (right), half a turn apart.
   */
  lemma SideBlocksMirror(height: real, depth: real, distX: real, distY: real, fw: real, fh: real, stripes: nat)
    requires stripes >= 1
    ensures var bs := CreateSeats(height, depth, distX, distY, fw, fh, stripes);
      var sw := fw / stripes as real;
      && bs[2].position.x + bs[3].position.x == -sw
      && bs[2].position.y == (fh / 8.0) / 2.0 && bs[3].position.y == -bs[2].position.y
      && bs[2].turn == 0.5 && bs[3].turn == 1.5
  {
  }
}

=== FILE: stadium.dfy ===
/**
  The stadium's fixed dimensions and the spectator roster.

  The roster seats spectators in four sections (top, left, bottom, right) on
  three tiers each and records them in three rows, one per tier, in column
  order: column j of every row belongs to the same section and the same spot
  along the section, so the wave can travel around the stadium column by
  column. Top and bottom seat 10 people per tier, but the left and right
  loops stop one short of their count of 9 and seat 8, so each row holds
  10 + 8 + 10 + 8 = 36 people.
 */
module Stadium {
  import opened Geometry
  import opened Person
  import Field
  import Seats

  const FieldWidth: real := 200.0
  const FieldHeight: real := 150.0
  const NumStripes: nat := 12

  const SeatDistX: real := FieldWidth / 4.0
  const SeatDistY: real := FieldHeight / 8.0
  const SeatDepth: real := 4.0
  const SeatHeight: real := 6.0

  const PersonHeight: real := 8.0
  const PersonWidth: real := 3.0
  /** Distance between neighbours in a section. */
  const Spacing: real := 7.0 * PersonWidth
  /** The roster's own stripe width, written with a literal 12 rather than the stripe count. */
  const RosterStripeWidth: real := FieldWidth / 12.0

  /** Number of columns in every row. */
  const Columns: nat := 36

  function Spec(): Field.FieldSpec
  {
    Field.FieldSpec(FieldWidth, FieldHeight, NumStripes)
  }

  /** The four seating blocks as the stadium builds them: top and bottom kept SeatDistY off the field, the sides SeatDistX. */
  function StadiumSeats(): (bs: seq<Seats.Block>)
    ensures |bs| == 4
    ensures bs[0].position.y == FieldHeight / 2.0 + (SeatDepth * 3.0) / 2.0 + SeatDistY
    ensures bs[1].position.y == -bs[0].position.y
    ensures bs[2].position.x == -FieldWidth / 2.0 + (SeatDepth * 3.0) / 2.0 - SeatDistX
  {
    Seats.CreateSeats(SeatHeight, SeatDepth, SeatDistX, SeatDistY, FieldWidth, FieldHeight, NumStripes)
  }

  /** The z a tier-k spectator's centre has when seated: the tier's top plus half a person. */
  function RestZ(k: nat): real
  {
    SeatHeight * k as real + PersonHeight / 2.0
  }

  datatype Section = Top | LeftSide | Bottom | RightSide

  /** Each section's `num_people`; the left and right loops seat one fewer than this. */
  function People(s: Section): nat
  {
    match s
    case Top => 10
    case LeftSide => 9
    case Bottom => 10
    case RightSide => 9
  }

  /** The roster's literal fw/12 is the stripe width the field, goals and seats derive from the stripe count. */
  lemma RosterStripeWidthAgrees()
    ensures RosterStripeWidth == Field.StripeWidth(Spec())
    ensures RosterStripeWidth * NumStripes as real == FieldWidth
  {
  }

  /** The demo's field keeps its centre circle between the boundary lines. */
  lemma DemoCircleInsideField()
    ensures var f := Field.CreateField(Spec());
      Field.EllipseWithin(f.centreCircle, Field.LeftBoundary(Spec()), Field.RightBoundary(Spec()),
                          -FieldHeight / 2.0, FieldHeight / 2.0)
  {
    Field.CentreCircleInsideField(Spec());
  }

  /** Where the tier-k person with loop index `i` of section `s` is seated. */
  function SeatSpot(s: Section, i: int, k: nat): Vec3
  {
    var back := SeatDepth * 2.0 * (k as real - 1.0);
    var along := -FieldWidth / 2.0 + i as real * Spacing;
    var z := SeatHeight * k as real;
    match s
    case Top => Vec3(along, FieldHeight / 2.0 + (SeatDepth * 3.0) / 2.0 + SeatDistY + back, z)
    case LeftSide => Vec3(-FieldWidth / 2.0 + (SeatDepth * 3.0) / 2.0 - SeatDistX - back, along, z)
    case Bottom => Vec3(along, -FieldHeight / 2.0 - (SeatDepth * 3.0) / 2.0 - SeatDistY - back, z)
    case RightSide => Vec3(FieldWidth / 2.0 - RosterStripeWidth - (SeatDepth * 3.0) / 2.0 + SeatDistX + back, along, z)
  }

  /** Side sections face the field turned by pi/2; top and bottom keep the default turn of 0. */
  function Turn(s: Section): real
  {
    if s == LeftSide || s == RightSide then 0.5 else 0.0
  }

  function HeadColor(s: Section, k: nat): int
  {
    match s
    case Top => if k == 1 then 0xE2C597 else 0xF7E9A7
    case LeftSide => if k == 1 then 0xF7E9A7 else 0xE2C597
    case Bottom => if k == 2 then 0xCC9933 else 0xF7E9A7
    case RightSide => 0xE2C597
  }

  /** The section and loop index that column `col` comes from. */
  function Locate(col: int): (r: (Section, int))
    requires 0 <= col < Columns
    ensures 0 <= r.1 < People(r.0)
    ensures r.0 in {LeftSide, RightSide} ==> r.1 >= 1
  {
    if col < 10 then (Top, 9 - col)
    else if col < 18 then (LeftSide, 18 - col)
    else if col < 28 then (Bottom, col - 18)
    else (RightSide, col - 27)
  }

  /** Column `col` of row `k`, by column number: the reference the roster loops are checked against. */
  function Spectator(k: nat, col: int, shirt: (nat, nat) -> int): Person
    requires 0 <= col < Columns
  {
    var (s, i) := Locate(col);
    CreatePerson(PersonWidth, PersonHeight, HeadColor(s, k), shirt(k, col), SeatSpot(s, i, k), Turn(s))
  }

  /** `row` holds exactly the first |row| columns of tier k. */
  predicate RowPrefix(row: seq<Person>, k: nat, shirt: (nat, nat) -> int)
  {
    |row| <= Columns && forall j :: 0 <= j < |row| ==> row[j] == Spectator(k, j, shirt)
  }

  /** Top section, tier k: loop indices 9 down to 0. */
  method SeatTop(row: seq<Person>, k: nat, shirt: (nat, nat) -> int) returns (r: seq<Person>)
    requires |row| == 0
    ensures |r| == 10 && RowPrefix(r, k, shirt)
  {
    r := row;
    var i := People(Top) - 1;
    while i >= 0
      invariant -1 <= i <= 9
      invariant |r| == 9 - i
      invariant RowPrefix(r, k, shirt)
    {
      r := r + [CreatePerson(PersonWidth, PersonHeight, HeadColor(Top, k), shirt(k, |r|), SeatSpot(Top, i, k))];
      i := i - 1;
    }
  }

  /** Left section, tier k: loop indices 8 down to 1 (the loop stops before 0). */
  method SeatLeft(row: seq<Person>, k: nat, shirt: (nat, nat) -> int) returns (r: seq<Person>)
    requires |row| == 10 && RowPrefix(row, k, shirt)
    ensures |r| == 18 && RowPrefix(r, k, shirt)
  {
    r := row;
    var i := People(LeftSide) - 1;
    while i > 0
      invariant 0 <= i <= 8
      invariant |r| == 18 - i
      invariant RowPrefix(r, k, shirt)
    {
      r := r + [CreatePerson(PersonWidth, PersonHeight, HeadColor(LeftSide, k), shirt(k, |r|), SeatSpot(LeftSide, i, k), 0.5)];
      i := i - 1;
    }
  }

  /** Bottom section, tier k: loop indices 0 up to 9. */
  method SeatBottom(row: seq<Person>, k: nat, shirt: (nat, nat) -> int) returns (r: seq<Person>)
    requires |row| == 18 && RowPrefix(row, k, shirt)
    ensures |r| == 28 && RowPrefix(r, k, shirt)
  {
    r := row;
    var i := 0;
    while i < People(Bottom)
      invariant 0 <= i <= 10
      invariant |r| == 18 + i
      invariant RowPrefix(r, k, shirt)
    {
      r := r + [CreatePerson(PersonWidth, PersonHeight, HeadColor(Bottom, k), shirt(k, |r|), SeatSpot(Bottom, i, k))];
      i := i + 1;
    }
  }

  /** Right section, tier k: loop indices 1 up to 8 (the loop starts after 0). */
  method SeatRight(row: seq<Person>, k: nat, shirt: (nat, nat) -> int) returns (r: seq<Person>)
    requires |row| == 28 && RowPrefix(row, k, shirt)
    ensures |r| == Columns && RowPrefix(r, k, shirt)
  {
    r := row;
    var i := 1;
    while i < People(RightSide)
      invariant 1 <= i <= 9
      invariant |r| == 27 + i
      invariant RowPrefix(r, k, shirt)
    {
      r := r + [CreatePerson(PersonWidth, PersonHeight, HeadColor(RightSide, k), shirt(k, |r|), SeatSpot(RightSide, i, k), 0.5)];
      i := i + 1;
    }
  }

  /**
    Seats the whole crowd in the order js/main.js uses (each section's three tiers,
    sections top, left, bottom, right). `shirt(k, j)` stands for the random
    shirt colour drawn for column j of tier k. Every row ends with the same 36
    columns, each equal to its column-numbered reference.
   */
  method BuildRoster(shirt: (nat, nat) -> int) returns (row1: seq<Person>, row2: seq<Person>, row3: seq<Person>)
    ensures |row1| == |row2| == |row3| == Columns
    ensures forall j :: 0 <= j < Columns ==>
      row1[j] == Spectator(1, j, shirt) && row2[j] == Spectator(2, j, shirt) && row3[j] == Spectator(3, j, shirt)
  {
    row1 := SeatTop([], 1, shirt);
    row2 := SeatTop([], 2, shirt);
    row3 := SeatTop([], 3, shirt);
    row1 := SeatLeft(row1, 1, shirt);
    row2 := SeatLeft(row2, 2, shirt);
    row3 := SeatLeft(row3, 3, shirt);
    row1 := SeatBottom(row1, 1, shirt);
    row2 := SeatBottom(row2, 2, shirt);
    row3 := SeatBottom(row3, 3, shirt);
    row1 := SeatRight(row1, 1, shirt);
    row2 := SeatRight(row2, 2, shirt);
    row3 := SeatRight(row3, 3, shirt);
  }

  /** The coordinate that runs along a section: x for top and bottom, y for the sides. */
  function Along(s: Section, p: Person): real
  {
    if s == Top || s == Bottom then p.position.x else p.position.y
  }

  /**
    The three spectators of a column share their section, turn and position
    along the section, and the tier-k one is seated at k seat heights, so its
    centre is at the tier's resting height.
   */
  lemma ColumnsAligned(col: int, shirt: (nat, nat) -> int)
    requires 0 <= col < Columns
    ensures var s := Locate(col).0;
      && Along(s, Spectator(1, col, shirt)) == Along(s, Spectator(2, col, shirt)) == Along(s, Spectator(3, col, shirt))
      && Spectator(1, col, shirt).rotation == Spectator(2, col, shirt).rotation == Spectator(3, col, shirt).rotation
    ensures forall k :: 1 <= k <= 3 ==>
      && SeatPoint(Spectator(k, col, shirt), PersonHeight).z == SeatHeight * k as real
      && Spectator(k, col, shirt).position.z == RestZ(k)
  {
  }

  /**
    Within a section neighbouring columns are one spacing apart: the top runs
    towards -x, the left towards -y, the bottom towards +x and the right
    towards +y.
   */
  lemma NeighboursOneSpacingApart(col: int, k: nat, shirt: (nat, nat) -> int)
    requires 0 <= col < Columns - 1 && Locate(col).0 == Locate(col + 1).0
    ensures var s := Locate(col).0;
      var step := Along(s, Spectator(k, col + 1, shirt)) - Along(s, Spectator(k, col, shirt));
      step == (if s == Top || s == LeftSide then -Spacing else Spacing)
  {
    var (s, i) := Locate(col);
    var (s', i') := Locate(col + 1);
    assert i' == (if s == Top || s == LeftSide then i - 1 else i + 1);
  }

  /**
    The sections follow one another around the field in the order top, left,
    bottom, right, and each section's first and last columns are the first and
    last indices its loop visits: top 9 down to 0, left 8 down to 1, bottom 0
    up to 9, right 1 up to 8.
   */
  lemma SectionOrder()
    ensures Locate(0) == (Top, 9) && Locate(9) == (Top, 0)
    ensures Locate(10) == (LeftSide, 8) && Locate(17) == (LeftSide, 1)
    ensures Locate(18) == (Bottom, 0) && Locate(27) == (Bottom, 9)
    ensures Locate(28) == (RightSide, 1) && Locate(35) == (RightSide, 8)
    ensures forall col :: 0 <= col < Columns - 1 ==>
      Locate(col).0 == Locate(col + 1).0 || Next(Locate(col).0) == Locate(col + 1).0
  {
  }

  /** The section that follows `s` going round the field. */
  function Next(s: Section): Section
  {
    match s
    case Top => LeftSide
    case LeftSide => Bottom
    case Bottom => RightSide
    case RightSide => Top
  }
}

=== FILE: wave.dfy ===
/**
  The stadium wave. While the wave is running, every qualifying tick handles
  column `col` of all three rows: it raises that column, lowers the column
  before it part of the way, and puts the column two back exactly at its
  tier's resting height. Then it moves on to the next column. Once `col`
  reaches the bound, the next tick stops the wave and rewinds to column 0.

  As in js/main.js, only row 1 is checked for a spectator at an index; rows 2
  and 3 are then indexed at the same place, which is safe because they are
  at least as long as row 1 (the roster makes all three the same length).
 */
module Wave {
  import opened Person
  import opened Stadium

  const Rise: real := 7.0
  const Fall: real := 3.0

  datatype WaveState = WaveState(active: bool, col: int, row1: seq<Person>, row2: seq<Person>, row3: seq<Person>)

  function Raise(p: Person, dz: real): Person
  {
    p.(position := p.position.(z := p.position.z + dz))
  }

  function Reseat(p: Person, z: real): Person
  {
    p.(position := p.position.(z := z))
  }

  /** Row 1 has a spectator at index `i` when `i` is within its length `n` (negative indices have none). */
  predicate Present(n: int, i: int)
  {
    0 <= i < n
  }

  /**
    One tick on one row, where `n` is the length of row 1, the only row
    js/main.js tests: it raises column c, lowers column c-1 by Fall and reseats
    column c-2 at `rest`. Every other spectator, and every x and y, is left as
    it was.
   */
  function StepRow(row: seq<Person>, n: int, c: int, rest: real): (r: seq<Person>)
    requires n <= |row|
    ensures |r| == |row|
    ensures forall j :: 0 <= j < |row| && j != c && j != c - 1 && j != c - 2 ==> r[j] == row[j]
    ensures forall j :: 0 <= j < |row| ==>
      r[j].position.x == row[j].position.x && r[j].position.y == row[j].position.y && r[j].rotation == row[j].rotation
  {
    seq(|row|, j requires 0 <= j < |row| =>
      if j == c && Present(n, c) then Raise(row[j], Rise)
      else if j == c - 1 && Present(n, c - 1) then Raise(row[j], -Fall)
      else if j == c - 2 && Present(n, c - 2) then Reseat(row[j], rest)
      else row[j])
  }

  /** Rows 2 and 3 have a spectator wherever row 1 has one, so js/main.js's indexing of them cannot fail. */
  predicate Guarded(w: WaveState)
  {
    |w.row1| <= |w.row2| && |w.row1| <= |w.row3|
  }

  /** One qualifying tick of a running wave whose last column index is `bound` - 1. */
  function Advance(w: WaveState, bound: int): (r: WaveState)
    requires Guarded(w)
    ensures Guarded(r)
  {
    var n := |w.row1|;
    if w.col < bound then
      WaveState(w.active, w.col + 1,
           StepRow(w.row1, n, w.col, RestZ(1)), StepRow(w.row2, n, w.col, RestZ(2)), StepRow(w.row3, n, w.col, RestZ(3)))
    else
      w.(active := false, col := 0)
  }

  /**
    What one tick does to a row, where `n` is the length of row 1: column c
    rises by 7, column c-1 drops by 3 and column c-2 is set to the resting
    height, each only when row 1 has that index; every other spectator,
    including those of rows 2 and 3 beyond row 1's length, keeps its height.
   */
  predicate TickMoves(before: seq<Person>, after: seq<Person>, n: int, c: int, rest: real)
    requires |after| == |before| && n <= |before|
  {
    && (0 <= c < n ==> after[c].position.z == before[c].position.z + 7.0)
    && (0 <= c - 1 < n ==> after[c - 1].position.z == before[c - 1].position.z - 3.0)
    && (0 <= c - 2 < n ==> after[c - 2].position.z == rest)
    && (forall j :: 0 <= j < |before| && (j >= n || (j != c && j != c - 1 && j != c - 2)) ==>
          after[j] == before[j])
  }

  /** A tick before the bound moves all three rows as TickMoves says, keeps the wave running and steps to the next column. */
  lemma TickEffect(w: WaveState, bound: int)
    requires Guarded(w) && w.col < bound
    ensures var r := Advance(w, bound); var n := |w.row1|;
      && r.active == w.active && r.col == w.col + 1
      && |r.row1| == |w.row1| && |r.row2| == |w.row2| && |r.row3| == |w.row3|
      && TickMoves(w.row1, r.row1, n, w.col, RestZ(1))
      && TickMoves(w.row2, r.row2, n, w.col, RestZ(2))
      && TickMoves(w.row3, r.row3, n, w.col, RestZ(3))
  {
  }

  /** At the bound, a tick stops the wave and rewinds it to column 0, moving nobody. */
  lemma TickAtBound(w: WaveState, bound: int)
    requires Guarded(w) && w.col >= bound
    ensures Advance(w, bound) == WaveState(false, 0, w.row1, w.row2, w.row3)
  {
  }

  /** `n` qualifying ticks in a row. */
  function AdvanceN(w: WaveState, n: nat, bound: int): (r: WaveState)
    requires Guarded(w)
    ensures Guarded(r)
  {
    if n == 0 then w else Advance(AdvanceN(w, n - 1, bound), bound)
  }

  predicate AtRest(row: seq<Person>, rest: real)
  {
    forall j :: 0 <= j < |row| ==> row[j].position.z == rest
  }

  /** Three rows of equal length, each at its tier's resting height. */
  predicate Seated(b1: seq<Person>, b2: seq<Person>, b3: seq<Person>)
  {
    |b1| == |b2| == |b3| && AtRest(b1, RestZ(1)) && AtRest(b2, RestZ(2)) && AtRest(b3, RestZ(3))
  }

  /**
    The resting row `base` with the wave's trail behind column `c`: column
    c-1 stands Rise above rest, column c-2 is Rise - Fall above rest, and every
    other column is as seated.
   */
  function Trail(base: seq<Person>, c: int): (r: seq<Person>)
    ensures |r| == |base|
  {
    seq(|base|, j requires 0 <= j < |base| =>
      if j == c - 1 then Raise(base[j], Rise)
      else if j == c - 2 then Raise(base[j], Rise - Fall)
      else base[j])
  }

  /**
    The sequencer's invariant relative to the seated rows b1, b2, b3: the
    column index stays within 0..bound, an idle wave is at column 0, and each
    row is its seated row with the trail behind the current column.
   */
  predicate InWindow(w: WaveState, b1: seq<Person>, b2: seq<Person>, b3: seq<Person>, bound: int)
  {
    && Seated(b1, b2, b3)
    && 0 <= w.col <= bound
    && (!w.active ==> w.col == 0)
    && w.row1 == Trail(b1, w.col) && w.row2 == Trail(b2, w.col) && w.row3 == Trail(b3, w.col)
  }

  /** A tick on a trailed row moves the trail one column on and leaves no drift behind. */
  lemma StepRowMovesTrail(base: seq<Person>, c: int, rest: real)
    requires AtRest(base, rest)
    ensures StepRow(Trail(base, c), |base|, c, rest) == Trail(base, c + 1)
  {
    var lhs := StepRow(Trail(base, c), |base|, c, rest);
    var rhs := Trail(base, c + 1);
    forall j | 0 <= j < |base|
      ensures lhs[j] == rhs[j]
    {
      if j == c - 2 {
        assert base[j].position.z == rest;
      }
    }
  }

  /** Column index by column index, the trail's heights, with x and y never touched. */
  lemma TrailHeights(base: seq<Person>, c: int, rest: real)
    requires AtRest(base, rest)
    ensures forall j :: 0 <= j < |base| ==>
      && Trail(base, c)[j].position.z == rest + (if j == c - 1 then 7.0 else if j == c - 2 then 4.0 else 0.0)
      && Trail(base, c)[j].position.x == base[j].position.x
      && Trail(base, c)[j].position.y == base[j].position.y
      && Trail(base, c)[j].rotation == base[j].rotation
  {
  }

  /** A tick before the bound keeps the invariant and moves to the next column. */
  lemma AdvanceKeepsWindow(w: WaveState, b1: seq<Person>, b2: seq<Person>, b3: seq<Person>, bound: int)
    requires InWindow(w, b1, b2, b3, bound) && w.active && w.col < bound
    ensures Advance(w, bound) == WaveState(true, w.col + 1, Trail(b1, w.col + 1), Trail(b2, w.col + 1), Trail(b3, w.col + 1))
    ensures InWindow(Advance(w, bound), b1, b2, b3, bound)
  {
    StepRowMovesTrail(b1, w.col, RestZ(1));
    StepRowMovesTrail(b2, w.col, RestZ(2));
    StepRowMovesTrail(b3, w.col, RestZ(3));
  }

  /** Once the column index passes the last row index by two, the trail has left every row. */
  lemma TrailGone(base: seq<Person>, c: int)
    requires c >= |base| + 2 || c <= 0
    ensures Trail(base, c) == base
  {
  }

  /** A trail that still touches the row changes it. */
  lemma TrailVisible(base: seq<Person>, c: int)
    requires |base| >= 1 && 1 <= c <= |base| + 1
    ensures Trail(base, c) != base
  {
    var j := if c - 1 < |base| then c - 1 else c - 2;
    assert Trail(base, c)[j].position.z != base[j].position.z;
  }

  /** From column `w.col`, `n` ticks that stay within the bound move the trail `n` columns on. */
  lemma {:induction false} RunWithinBound(w: WaveState, b1: seq<Person>, b2: seq<Person>, b3: seq<Person>, bound: int, n: nat)
    requires InWindow(w, b1, b2, b3, bound) && w.active && w.col + n <= bound
    ensures AdvanceN(w, n, bound) == WaveState(true, w.col + n, Trail(b1, w.col + n), Trail(b2, w.col + n), Trail(b3, w.col + n))
  {
    if n > 0 {
      RunWithinBound(w, b1, b2, b3, bound, n - 1);
      var v := AdvanceN(w, n - 1, bound);
      AdvanceKeepsWindow(v, b1, b2, b3, bound);
    }
  }

  /**
    A wave started at column 0 from seated rows with bound N + 2 (N the row
    length) ends after bound + 1 ticks: bound ticks carry the trail past the
    last column and one more stops the wave at column 0. Every spectator is then
    back exactly as seated.
   */
  lemma Completion(b1: seq<Person>, b2: seq<Person>, b3: seq<Person>, bound: int)
    requires Seated(b1, b2, b3) && bound == |b1| + 2
    ensures AdvanceN(WaveState(true, 0, b1, b2, b3), bound + 1, bound) == WaveState(false, 0, b1, b2, b3)
  {
    var start := WaveState(true, 0, b1, b2, b3);
    TrailGone(b1, 0);
    TrailGone(b2, 0);
    TrailGone(b3, 0);
    RunWithinBound(start, b1, b2, b3, bound, bound);
    TrailGone(b1, bound);
    TrailGone(b2, bound);
    TrailGone(b3, bound);
  }

  /**
    For a non-empty roster the wave finishes with every spectator seated
    exactly when the bound is 0 or at least N + 2. With a bound of N, the last
    two columns would be left standing.
   */
  lemma CompletionNeedsTwoSpareTicks(b1: seq<Person>, b2: seq<Person>, b3: seq<Person>, bound: int)
    requires Seated(b1, b2, b3) && |b1| >= 1 && bound >= 0
    ensures AdvanceN(WaveState(true, 0, b1, b2, b3), bound + 1, bound) == WaveState(false, 0, b1, b2, b3)
            <==> (bound == 0 || bound >= |b1| + 2)
  {
    var start := WaveState(true, 0, b1, b2, b3);
    TrailGone(b1, 0);
    TrailGone(b2, 0);
    TrailGone(b3, 0);
    RunWithinBound(start, b1, b2, b3, bound, bound);
    var end := AdvanceN(start, bound + 1, bound);
    assert end == WaveState(false, 0, Trail(b1, bound), Trail(b2, bound), Trail(b3, bound));
    if bound == 0 || bound >= |b1| + 2 {
      TrailGone(b1, bound);
      TrailGone(b2, bound);
      TrailGone(b3, bound);
    } else {
      TrailVisible(b1, bound);
    }
  }
}
